=== FILE: README.md ===
# UE-core in Dafny

A model of the state-transition core of the Underground Empire proof-of-stake
node skeleton, with proofs of its properties. The model has four parts:

- **Validator registry** (`Validator`, modules/validator/validator.go). This is
  a map from validator ID to `ValidatorNode`. It covers registration with a
  minimum stake and a unique ID, and soft deregistration. It covers in-place
  replacement, and slashing by cause with an all-or-nothing stake floor. It
  also covers the aggregates over the active validators: the active list, their
  count, their total stake and the proportional block reward.
- **Round engine** (`Consensus`, modules/consensus/consensus.go). The
  in-memory engine drives one height at a time through propose, pre-vote,
  pre-commit and finalize. It picks proposers round-robin from the validator
  snapshot it was built with, and finalizes on a 67 percent headcount quorum.
  `ConsensusRuns` states what holds over whole sequences of engine calls and
  over the demo driver (cmd/ued/main.go:149-159).
- **Protocol helpers** (`UeContext`, core/types/ue_context.go). These are the
  constants, validator eligibility, reward division, the quorum test, epoch
  arithmetic and the context setters.
- **Value types** (`UeTx`, core/types/ue_tx.go). These are addresses with hex
  parsing and printing, and coin amounts with denomination-checked arithmetic.
  They also include coin-amount text parsing and transaction validation.
  `Hex` models Go's `encoding/hex`. `Decimal` models `%d` printing and
  `strconv.ParseUint`. `Results` holds the result type that stands in for Go's
  `(value, error)` returns. `Arith` holds the facts about multiplication,
  floor division and remainder that the quotients above rely on.

Every state change is a pure function from the old state to a new state, or
to an error. The four read-only registry queries (`GetActiveValidators`,
`GetTotalStake`, `GetValidatorCount`, `CalculateRewards`) are methods and
change nothing. The first two walk the map with loops, and the other two call
them. When an operation fails, it returns only the error and no new state.
So "on failure nothing changes" holds by construction, as it does in Go, where
each error is returned before the first write. The registry's map iteration
order is unspecified. `GetActiveValidators` is therefore a method that picks
the keys in any order. It returns, besides the list, a ghost enumeration of
the active IDs that ties each list entry to its map entry. Wall-clock reads
(`time.Now()`) become parameters; "## Left out" lists the places where one
parameter stands for several reads.

## Model

| member | source | states |
|---|---|---|
| `Validator.RegisterNode` | modules/validator/validator.go:83-106 | fails exactly when the stake is below 28846 or the ID is taken, and the stake error wins when both hold; on success the map gains exactly the key `node.id`, which holds the node as active, with its creation and update times taken from two separate clock readings; every other entry is kept; the active set gains that ID; the record-keyed-by-ID and active-validators-are-eligible invariants are preserved |
| `Validator.DeregisterNode` | modules/validator/validator.go:109-121 | fails with not-found exactly for an unknown ID; otherwise the record stays with status inactive, no key is added or removed, other entries are untouched, and the ID leaves the active set |
| `Validator.GetValidator` | modules/validator/validator.go:137-144 | succeeds exactly for a known ID and then returns the stored record |
| `Validator.UpdateValidator` | modules/validator/validator.go:147-156 | fails with not-found for an unknown ID; otherwise the key set is unchanged, only the entry at `node.id` is replaced (by the node stamped with the current time), and IDs still key their own records |
| `Validator.ReasonName` | modules/validator/validator.go:50-58 | the four named causes print as Go's four constants; any other cause prints as a string that is none of them |
| `Validator.ReasonOf` | modules/validator/validator.go:50-58 | every Go reason string denotes the cause that prints as that string |
| `Validator.ReasonOfName` | modules/validator/validator.go:50-58 | reading back a cause's string gives the same cause |
| `Validator.SlashAmount` | modules/validator/validator.go:206-219 | the penalty is the floor of half the stake for double-signing and equivocation, of a quarter for an invalid block, of a tenth for downtime and any other cause; it never exceeds the stake |
| `Validator.StakeAfterSlash` | modules/validator/validator.go:188-198 | the remaining stake never exceeds the old one and is either 0 or at least 28846; it is the stake minus the penalty unless that falls below the minimum, in which case it is 0 |
| `Validator.SlashNode` | modules/validator/validator.go:181-203 | fails with not-found exactly for an unknown ID; otherwise the record's status becomes slashed, its stake becomes the post-penalty stake, so it never rises and is 0 or at least the minimum; other fields, other entries and the key set are unchanged; the ID leaves the active set |
| `Validator.GetActiveValidators` | modules/validator/validator.go:124-134 | returns one record per active ID, each equal to the map's entry for that ID, in some order without repetition, and only active records |
| `Validator.GetTotalStake` | modules/validator/validator.go:222-231 | equals the order-independent sum of the stakes of the active validators |
| `Validator.GetValidatorCount` | modules/validator/validator.go:234-236 | equals the number of IDs whose record is active |
| `Validator.StakeSumRemove` | modules/validator/validator.go:226-228 | the active-stake sum does not depend on the order the map is walked in: any member can be split off first |
| `Validator.ActiveStakeWithinTotal` | modules/validator/validator.go:165-171 | an active validator's stake is at most the total active stake |
| `Validator.CalculateRewards` | modules/validator/validator.go:159-178 | the reward is 0 for an unknown ID or when no stake is active; otherwise it is the stake's floor share of the 1000-unit block reward; for an active validator it is at most 1000 |
| `Validator.RewardMonotone` | modules/validator/validator.go:159-178 | among registered validators, a larger stake never earns a smaller reward |
| `Consensus.NewInMemoryConsensusEngine` | modules/consensus/consensus.go:41-53 | a new engine is at height 1, round 0, proposer index 0, with the given snapshot, no votes and no finalized blocks, and satisfies the engine invariant |
| `Consensus.BlockHash` | modules/consensus/consensus.go:78 | the hash starts with `block_` and has more after it |
| `Consensus.BlockHashNamesHeight` | modules/consensus/consensus.go:78 | what follows `block_` is the height written in decimal digits, with no leading zero unless the height is 0 |
| `Consensus.BlockHashInjective` | modules/consensus/consensus.go:78 | the hash `block_<height>` differs for different heights |
| `Consensus.ProposeBlock` | modules/consensus/consensus.go:56-85 | fails exactly when the snapshot is empty; otherwise the block has the current height, hash `block_<height>`, the snapshot validator at the proposer index as proposer, one placeholder transaction stamped with the Unix-seconds reading, the block stamped with the second reading, and no finality; the engine state is not touched |
| `Consensus.DefaultBlockTxIsInvalid` | modules/consensus/consensus.go:64-75 | the placeholder transaction put into every proposed block has a zero sender, so transaction validation rejects it |
| `Consensus.PreVoteBlock` | modules/consensus/consensus.go:89-104 | appends exactly one pre-vote per snapshot validator, for the block's hash and in snapshot order; earlier votes and all other state are unchanged; the engine invariant is kept |
| `Consensus.PreCommitBlock` | modules/consensus/consensus.go:107-122 | appends exactly one pre-commit per snapshot validator, for the block's hash and in snapshot order; earlier votes and all other state are unchanged; the engine invariant is kept |
| `Consensus.CastVotes` | modules/consensus/consensus.go:93-102 | one vote per validator, in list order, each naming that validator, the hash and the phase |
| `Consensus.CountPreCommits` | modules/consensus/consensus.go:130-135 | the count of pre-commits for a hash never exceeds the number of votes |
| `Consensus.CountPreCommitsCharacterized` | modules/consensus/consensus.go:130-135 | the count is zero exactly when no vote is a pre-commit for the hash, and equals the number of votes exactly when every vote is one |
| `Consensus.CountPreCommitsAppend` | modules/consensus/consensus.go:131-136 | the pre-commit count over two vote lists is the sum of their counts |
| `Consensus.PreCommitAddsOnePerValidator` | modules/consensus/consensus.go:111-121 | a pre-commit round raises the block's pre-commit count by the number of validators; with no deduplication a repeated round counts again |
| `Consensus.PreVoteAddsNoPreCommit` | modules/consensus/consensus.go:93-102 | a pre-vote round leaves every hash's pre-commit count unchanged |
| `Consensus.FinalizeBlock` | modules/consensus/consensus.go:125-152 | fails with no-validators on an empty snapshot; otherwise succeeds exactly when 100 times the pre-commits for the block's hash reach 67 times the validator count; on success it adds one to the height, moves the proposer index to (i+1) mod n, clears the votes, appends the block marked finalized, keeps round and snapshot, and keeps the engine invariant; on failure it reports the count and the total |
| `Consensus.FinalizeMatchesConsensusRule` | modules/consensus/consensus.go:139-140 | the engine's inline percentage test agrees with the protocol helper `IsConsensusReached` |
| `Consensus.PreCommitThenFinalize` | modules/consensus/consensus.go:111-147 | with a non-empty snapshot, one pre-commit round for a block always lets that block finalize, whatever height the block names |
| `Consensus.FreshVotesAfterFinalize` | modules/consensus/consensus.go:148 | after a successful finalization the next pre-vote round holds exactly one vote per validator |
| `Consensus.TwoOfThreeFailsThreeOfThreeFinalizes` | modules/consensus/consensus.go:139-140 | with three validators, two pre-commits fail to finalize and three succeed |
| `ConsensusRuns.Apply` | modules/consensus/consensus.go:56-152 | every engine call keeps the engine invariant and the snapshot, and raises the height by at most one; proposing leaves the state as it was |
| `ConsensusRuns.Run` | modules/consensus/consensus.go:41-152 | any sequence of engine calls keeps the invariant: height is one more than the number of finalized blocks, the round stays 0, the proposer index is that number mod n, and the recorded history only grows (finalized blocks are stored as values) |
| `ConsensusRuns.ProposerTracksFinalizations` | modules/consensus/consensus.go:143-147 | from a new engine, after any calls, the proposer index is the count of finalized blocks mod the number of validators |
| `ConsensusRuns.DemoRound` | cmd/ued/main.go:150-154 | one propose, pre-vote, pre-commit, finalize round always finalizes the proposed block; it advances height and proposer and clears the votes |
| `ConsensusRuns.RunDemo` | cmd/ued/main.go:149-159 | after k demo rounds the engine is at height k+1; k blocks are finalized; block i has height i+1 and hash `block_<i+1>`; it was proposed by snapshot validator i mod n |
| `ConsensusRuns.HistoryHashesDistinct` | modules/consensus/consensus.go:78 | a round-robin history never holds two blocks with the same hash |
| `ConsensusRuns.DemoHashesDistinct` | cmd/ued/main.go:149-159 | no two blocks finalized by a demo run share a hash |
| `ConsensusRuns.DemoScenario` | cmd/ued/main.go:134-143 | the demo's three 30000-stake validators all register and become active; the first block's proposer is val1; after one round the height is 2 and val2 proposes next |
| `UeContext.NewContext` | core/types/ue_context.go:51-58 | the context holds the given height, timestamp and chain ID |
| `UeContext.WithHeight` | core/types/ue_context.go:61-68 | the copy has the new height and the old timestamp and chain ID; it equals the original exactly when the height is unchanged |
| `UeContext.WithTimestamp` | core/types/ue_context.go:71-78 | the copy has the new timestamp and the old height and chain ID; it equals the original exactly when the timestamp is unchanged |
| `UeContext.EligibilityBoundary` | core/types/ue_context.go:81-83 | a stake is eligible exactly when it is at least 28846: 28845 is not eligible and 28846 is |
| `UeContext.EligibleUpwardClosed` | core/types/ue_context.go:81-83 | eligibility (stake at least 28846) is kept by any larger stake |
| `UeContext.CalculateValidatorReward` | core/types/ue_context.go:86-91 | 0 when nothing is staked; otherwise the floor of stake times reward over total, pinned between consecutive multiples; at most the reward when the stake is within the total |
| `UeContext.RewardMonotoneInStake` | core/types/ue_context.go:86-91 | the reward is monotone in the stake |
| `UeContext.IsConsensusReached` | core/types/ue_context.go:94-100 | false with no validators; otherwise true exactly when 100 times the votes reach 67 times the validator count |
| `UeContext.QuorumByMultiplication` | core/types/ue_context.go:98-99 | the truncated percentage reaches 67 exactly when 100 times the votes reach 67 times the total |
| `UeContext.ConsensusMonotoneInVotes` | core/types/ue_context.go:94-100 | more votes never lose a reached quorum |
| `UeContext.QuorumBoundaries` | core/types/ue_context.go:94-100 | the smallest finalizing headcounts are 3 of 3, 3 of 4, 7 of 10 and 67 of 100 |
| `UeContext.CalculateEpochNumber` | core/types/ue_context.go:103-105 | the epoch e satisfies 100e ≤ height < 100(e+1) |
| `UeContext.IsEpochBoundary` | core/types/ue_context.go:108-110 | holds exactly at the first height of an epoch |
| `UeContext.CalculateNextEpochHeight` | core/types/ue_context.go:113-116 | the result is an epoch boundary, strictly above the height and at most 100 above it, with no boundary in between |
| `UeTx.TrimHexPrefix` | core/types/ue_tx.go:39 | the text is either the result or "0x" followed by the result, and it is the latter exactly when the text starts with "0x": one prefix is removed, no more |
| `UeTx.NewAddress` | core/types/ue_tx.go:35-55 | after removing one optional "0x", succeeds exactly when the rest is forty hex digits of either case; a hex error is reported before a length error; on success the address prints as "0x" followed by the trimmed text with its letters lower-cased, so upper- and lower-case digits give the same bytes |
| `UeTx.AddressString` | core/types/ue_tx.go:58-60 | "0x" followed by forty lower-case hex digits |
| `UeTx.AddressRoundTrip` | core/types/ue_tx.go:35-60 | parsing the printed form of an address returns that address without error |
| `UeTx.AddressCanonicalText` | core/types/ue_tx.go:35-60 | for lower-case "0x" text of the right length, printing the parsed address gives the text back |
| `UeTx.AllZero` | core/types/ue_tx.go:68-75 | the scan is true exactly when every byte is 0 |
| `UeTx.IsZeroAddress` | core/types/ue_tx.go:68-75 | true exactly for the all-zero address |
| `UeTx.CoinString` | core/types/ue_tx.go:91-93 | decimal digits whose value is the amount, with no leading zero unless the amount is 0, followed by the denomination |
| `UeTx.Add` | core/types/ue_tx.go:96-105 | fails exactly on a denomination mismatch; otherwise the sum keeps the denomination |
| `UeTx.Sub` | core/types/ue_tx.go:108-121 | fails exactly on a denomination mismatch or a smaller balance; the mismatch is reported first, and a smaller balance of the same denomination gives the insufficient-balance error naming both coins; otherwise the difference keeps the denomination |
| `UeTx.AddSubRoundTrip` | core/types/ue_tx.go:96-121 | adding then subtracting the same amount gives the original coin back |
| `UeTx.SubAddRoundTrip` | core/types/ue_tx.go:96-121 | subtracting then adding back the same amount gives the original coin back |
| `UeTx.Mul` | core/types/ue_tx.go:124-129 | keeps the denomination; a zero factor gives 0; for any other factor the result is a multiple of the factor whose quotient is the amount, which is the exact product |
| `UeTx.Div` | core/types/ue_tx.go:132-140 | keeps the denomination; a zero factor gives 0 instead of failing; otherwise the floor quotient |
| `UeTx.MulDivRoundTrip` | core/types/ue_tx.go:124-140 | dividing a multiplied coin by the same non-zero factor gives it back |
| `UeTx.LastDigitIndex` | core/types/ue_tx.go:227-233 | finds the last decimal digit, with none after it, or reports that the text has no digit |
| `UeTx.ParseCoinAmount` | core/types/ue_tx.go:222-248 | text with no digit fails as a format error; any other failure is an amount error naming the text up to the last digit, which does not parse as a uint64; on success the denomination is the digit-free tail after the last digit and the amount is the uint64 value of everything before it |
| `UeTx.ParseCoinAmountOfSplit` | core/types/ue_tx.go:222-248 | any digit run that fits in 64 bits, followed by digit-free text, parses to that number and that text as denomination |
| `UeTx.CoinRoundTrip` | core/types/ue_tx.go:91-93 | for a uint64 amount and a digit-free denomination, parsing the printed coin gives it back |
| `UeTx.NewCoinAmount` | core/types/ue_tx.go:77-83 | the coin holds the given amount and denomination and prints as the amount's digits followed by the denomination |
| `UeTx.NewUECoins` | core/types/ue_tx.go:86-88 | a coin of the given amount in denomination "ue" |
| `UeTx.NewTransaction` | core/types/ue_tx.go:151-163 | copies the seven given fields and leaves hash, signature and timestamp at their zero values |
| `UeTx.NewTransactionValidates` | core/types/ue_tx.go:151-214 | a freshly built transaction passes validation exactly when sender and recipient are non-zero and amount, gas and gas price are positive |
| `UeTx.Validate` | core/types/ue_tx.go:188-214 | passes exactly when sender, recipient, amount, gas and gas price are all non-zero; each error names the first failing check in that order |
| `UeTx.CalculateGasCost` | core/types/ue_tx.go:217-219 | zero exactly when gas or gas price is zero; for a non-zero price the cost is a multiple of the price whose quotient is the gas, which is the exact product |
| `UeTx.ValidTransactionCostsGas` | core/types/ue_tx.go:188-219 | a transaction that passes validation has a positive gas cost |
| `Hex.Encode` | core/types/ue_tx.go:59 | two lower-case hex digits per byte, so the text is twice as long as the bytes |
| `Hex.Decode` | core/types/ue_tx.go:42 | succeeds exactly on even-length text of hex digits in either case, giving half as many bytes |
| `Hex.DecodeEncode` | core/types/ue_tx.go:42-60 | decoding the hex encoding of bytes gives the bytes back |
| `Hex.DecodeIgnoresCase` | core/types/ue_tx.go:42 | decoding hex text gives the same result, error or bytes, as decoding the text with its letters lower-cased |
| `Hex.DecodeAnyCase` | core/types/ue_tx.go:42 | even-length hex text of either case decodes to the bytes whose lower-case encoding is the lower-cased text |
| `Hex.EncodeDecode` | core/types/ue_tx.go:42-60 | encoding the bytes decoded from lower-case hex gives the text back |
| `Decimal.NatToString` | core/types/ue_tx.go:92 | a non-empty string of decimal digits with no leading zero unless the number is 0; it has more than one digit exactly when the number is at least 10 |
| `Decimal.ParseUint` | core/types/ue_tx.go:239 | succeeds exactly on a non-empty digit string whose value is below 2^64, and returns that value |
| `Decimal.ValueOfNatToString` | core/types/ue_tx.go:92 | the value of the printed digits of n is n |
| `Decimal.NatToStringInjective` | core/types/ue_tx.go:92 | different numbers print differently |
| `Decimal.ParseUintOfNatToString` | core/types/ue_tx.go:92 | parsing the printed digits of a number below 2^64 gives the number back |

## Left out

- `Transaction.CalculateHash` (core/types/ue_tx.go:166-185): SHA-256 is a foreign call. No model member uses a transaction hash.
- `Address.Bytes`, `CoinAmount.IsZero` and `CoinAmount.IsPositive` are identity accessors or one comparison. `IsZero` and `IsPositive` are the predicates `IsZeroCoin` and `IsPositiveCoin`, with no contract of their own.
- `GetState` returns the engine's state handle. In the model the state is the value the operations pass around.
- The `valManager` field of the engine is never read after construction, so the model does not hold it.
- Slash records and slash history: `SlashRecord` is declared, but `SlashNode` never creates one and nothing stores one. `DistributeRewards` and `GetSlashHistory` are interface methods with no implementation.
- The `Jailed` status is declared, but no operation sets it.
- `sync.Mutex` locking, `fmt.Printf` logging, the Cobra command line, and the `app` start/stop placeholders are left out. They are concurrency or I/O and have no effect on the transitions.
- Timestamps: each `time.Now()` becomes a caller-supplied parameter. `RegisterNode` takes its two readings (modules/validator/validator.go:96-97) as two parameters. `ProposeBlock` takes the transaction's Unix-seconds reading and the block's reading (modules/consensus/consensus.go:74, 79) as two parameters. Other places collapse several readings into one, and they are listed next.
- Consensus.PreVoteBlock and Consensus.PreCommitBlock: all votes of one call share one instant, where Go reads the clock once per vote (modules/consensus/consensus.go:97, 115).
- ConsensusRuns.DemoRound: one instant stands for every clock reading of the round: the two in `ProposeBlock`, the per-vote ones, and the finality time. Its contract says nothing about times, so only the recorded timestamps differ from Go.
- The embedded `context.Context` of `types.Context` is a standard-library wrapper with no behaviour here.
- `UEError` and the error message texts: errors are tagged values. The amount error of `ParseCoinAmount` carries the text up to the last digit, which is the text `strconv`'s error names, and not the error itself.
- UeContext.CalculateValidatorReward: requires that stake times reward does not wrap past 2^64, because Go's uint64 wrap-around is not modelled.
- UeContext.IsConsensusReached: requires that 100 times the votes does not wrap, for the same reason.
- UeContext.CalculateNextEpochHeight: requires that the next boundary fits in 64 bits, for the same reason.
- UeTx.Add: requires that the sum of two same-denomination amounts does not wrap, for the same reason.
- UeTx.Mul: requires that the product does not wrap, for the same reason.
- UeTx.CalculateGasCost: requires that gas times gas price does not wrap, for the same reason.
- Validator.GetTotalStake: the total is an unbounded sum. Go's wrap past 2^64 is not modelled.
- Validator.CalculateRewards: requires that the validator's stake times 1000 does not wrap. The total stake is an unbounded sum, as for `GetTotalStake`.
- Engine height and the signed `int` pre-commit count: these are unbounded. The uint64 height starts at 1 and would wrap only after 2^64 - 1 finalizations. The product `preCommits * 100` (modules/consensus/consensus.go:139) would overflow a 64-bit `int` only above (2^63 - 1) / 100, about 9.2 * 10^16 pre-commits.
- `Decimal.ParseUint` reports one error kind. Go tells a syntax error from a range error, but its only caller turns both into the same "invalid amount" error.
- Strings are sequences of Unicode characters rather than bytes. The digit and hex-digit tests give the same answers, because no byte of a multi-byte UTF-8 character is an ASCII digit or letter.
- Block identity: Go passes blocks by pointer. `FinalizeBlock` (modules/consensus/consensus.go:141-143) sets `Finalized` and `FinalityTime` on the caller's block and appends that same pointer to the history. The model stores a copy of the block and returns the new state without touching the caller's value. Finalizing one block twice, which the engine allows, stores one shared object twice in Go, and the second call rewrites the finality time of the earlier entry. In the model the two entries are separate values with their own times.
- ConsensusRuns.Run: "the recorded history only grows" holds for finalized blocks stored as values. With Go's shared block objects, a later finalization of the same block can change the finality time of an earlier history entry.
- Vote deduplication and checking a block's height against the current height: the source does neither, and the model follows the source. `PreCommitAddsOnePerValidator` and `PreCommitThenFinalize` show the consequences.

=== FILE: arith.dfy ===
/** Facts about multiplication, floor division and remainder on natural
    numbers, proved once and used wherever a quotient must be pinned down. */
module Arith {

  /** Multiplying by the same factor keeps the order. */
  lemma MulLeMonotone(a: nat, b: nat, c: nat)
    requires a <= b
    ensures a * c <= b * c
  {
  }

  /** A strict order between multiples of `d` is one between the factors. */
  lemma MulLtCancel(a: nat, b: nat, d: nat)
    requires d > 0 && a * d < b * d
    ensures a < b
  {
    if a >= b {
      MulLeMonotone(b, a, d);
    }
  }

  /** Dividing a multiple of `d` by `d` gives the factor back. */
  lemma MulDivCancel(a: nat, d: nat)
    requires d > 0
    ensures (d * a) / d == a
  {
    DivUnique(d * a, d, a);
  }

  /** A multiple of `d` leaves no remainder. */
  lemma MulModZero(a: nat, d: nat)
    requires d > 0
    ensures (d * a) % d == 0
  {
    ModUnique(d * a, d, a, 0);
  }

  /** The quotient is the one `q` with `q*d <= x < (q+1)*d`. */
  lemma DivUnique(x: nat, d: nat, q: nat)
    requires d > 0 && q * d <= x < (q + 1) * d
    ensures x / d == q
  {
    var r := x / d;
    assert r * d <= x < (r + 1) * d;
    MulLtCancel(r, q + 1, d);
    MulLtCancel(q, r + 1, d);
  }

  /** The remainder is the one `r` with `x == q*n + r` and `r < n`. */
  lemma ModUnique(x: nat, n: nat, q: nat, r: nat)
    requires n > 0 && r < n && x == q * n + r
    ensures x % n == r
  {
    DivUnique(x, n, q);
  }

  /** Floor division by the same divisor keeps the order. */
  lemma DivLeMonotone(x: nat, y: nat, d: nat)
    requires x <= y && d > 0
    ensures x / d <= y / d
  {
    assert (x / d) * d <= x;
    assert y < (y / d + 1) * d;
    MulLtCancel(x / d, y / d + 1, d);
  }
}

=== FILE: consensus.dfy ===
/** The in-memory round engine: one block height at a time goes through
    propose, pre-vote, pre-commit and finalize, over the validator list
    handed to the engine when it was built. Each operation maps an engine
    state to a new one; the lock the Go engine takes around each operation
    only serialises these transitions. */
module Consensus {
  import opened Results
  import opened Decimal
  import opened UeContext
  import opened Arith
  import UeTx
  import Validator

  datatype VoteType = PreVote | PreCommit

  datatype Vote = Vote(validatorId: string, blockHash: string, timestamp: Time, voteType: VoteType)

  datatype ConsensusData = ConsensusData(
    preVotes: seq<Vote>,
    preCommits: seq<Vote>,
    finalized: bool,
    finalityTime: Time)

  /** Consensus metadata of a freshly proposed block (Go's zero value). */
  const NoConsensusData: ConsensusData := ConsensusData([], [], false, 0)

  datatype Block = Block(
    height: nat,
    hash: string,
    timestamp: Time,
    proposer: string,
    transactions: seq<UeTx.Transaction>,
    consensus: ConsensusData)

  /** Engine state. `validators` is the snapshot given at construction; the
      engine never consults the registry again. */
  datatype ConsensusState = ConsensusState(
    currentHeight: nat,
    currentRound: nat,
    validators: seq<Validator.ValidatorNode>,
    proposerIndex: nat,
    votes: seq<Vote>,
    finalizedBlocks: seq<Block>)

  datatype EngineError =
    | NoValidators
    | QuorumNotReached(preCommits: nat, totalValidators: nat)

  /** What every reachable engine state satisfies: one finalized block per
      height below the current one, the round never moves, the proposer
      index advances once per finalized block modulo the validator count, and
      every block in the history carries the finalized flag. */
  ghost predicate Valid(st: ConsensusState) {
    && st.currentHeight == |st.finalizedBlocks| + 1
    && st.currentRound == 0
    && (|st.validators| == 0 ==> st.proposerIndex == 0 && |st.finalizedBlocks| == 0)
    && (|st.validators| > 0 ==> st.proposerIndex == |st.finalizedBlocks| % |st.validators|)
    && (forall i :: 0 <= i < |st.finalizedBlocks| ==> st.finalizedBlocks[i].consensus.finalized)
  }

  function NewInMemoryConsensusEngine(validators: seq<Validator.ValidatorNode>): (st: ConsensusState)
    ensures Valid(st)
    ensures st.currentHeight == 1 && st.currentRound == 0 && st.proposerIndex == 0
    ensures st.validators == validators && st.votes == [] && st.finalizedBlocks == []
  {
    ConsensusState(1, 0, validators, 0, [], [])
  }

  /** `block_<height>`. */
  function BlockHash(height: nat): (h: string)
    ensures |h| > 6 && h[..6] == "block_"
  {
    "block_" + NatToString(height)
  }

  /** What follows `block_` in a block hash is the height in decimal. */
  lemma BlockHashNamesHeight(height: nat)
    ensures AllDigits(BlockHash(height)[6..]) && DigitsValue(BlockHash(height)[6..]) == height
    ensures BlockHash(height)[6] != '0' || height == 0
  {
    ValueOfNatToString(height);
    assert BlockHash(height)[6..] == NatToString(height);
  }

  /** Different heights never share a block hash. */
  lemma BlockHashInjective(h1: nat, h2: nat)
    requires h1 != h2
    ensures BlockHash(h1) != BlockHash(h2)
  {
    BlockHashNamesHeight(h1);
    BlockHashNamesHeight(h2);
  }

  /** The placeholder transfer placed in every proposed block. */
  function DefaultBlockTx(unixSeconds: int): UeTx.Transaction {
    UeTx.Transaction("tx1", UeTx.ZeroAddress, UeTx.ZeroAddress, UeTx.NewUECoins(1),
                     21000, 1, [], 1, [], unixSeconds)
  }

  /** The placeholder transfer names the zero address as sender, so it would
      not pass transaction validation. */
  lemma DefaultBlockTxIsInvalid(unixSeconds: int)
    ensures UeTx.Validate(DefaultBlockTx(unixSeconds)) == Fail(UeTx.ZeroFrom)
  {
  }

  /** Builds the block for the current height, authored by the validator at
      the proposer index. The placeholder transaction is stamped with the
      clock read as Unix seconds, the block with a second reading `now`.
      Leaves the engine state as it is. */
  function ProposeBlock(st: ConsensusState, txSeconds: int, now: Time): (r: Result<Block, EngineError>)
    requires |st.validators| > 0 ==> st.proposerIndex < |st.validators|
    ensures r.Err? <==> |st.validators| == 0
    ensures r.Err? ==> r.error == NoValidators
    ensures r.Ok? ==>
      && r.value.height == st.currentHeight
      && r.value.hash == BlockHash(st.currentHeight)
      && r.value.proposer == st.validators[st.proposerIndex].id
      && r.value.transactions == [DefaultBlockTx(txSeconds)]
      && r.value.timestamp == now
      && !r.value.consensus.finalized
  {
    if |st.validators| == 0 then Err(NoValidators)
    else
      var proposer := st.validators[st.proposerIndex];
      Ok(Block(st.currentHeight, BlockHash(st.currentHeight), now, proposer.id,
               [DefaultBlockTx(txSeconds)], NoConsensusData))
  }

  /** One vote of the given phase for `hash` per validator, in list order. */
  function CastVotes(validators: seq<Validator.ValidatorNode>, hash: string, now: Time, phase: VoteType): (votes: seq<Vote>)
    ensures |votes| == |validators|
    ensures forall i :: 0 <= i < |votes| ==> votes[i] == Vote(validators[i].id, hash, now, phase)
  {
    if |validators| == 0 then []
    else
      var n := |validators| - 1;
      CastVotes(validators[..n], hash, now, phase) + [Vote(validators[n].id, hash, now, phase)]
  }

  /** Appends one vote of `phase` for the block per snapshot validator; no
      deduplication, and nothing else changes. A helper of the two voting
      phases, whose contracts state what it does. */
  function AppendVotes(st: ConsensusState, block: Block, now: Time, phase: VoteType): ConsensusState {
    st.(votes := st.votes + CastVotes(st.validators, block.hash, now, phase))
  }

  /** Pre-vote phase: every snapshot validator votes for the block. */
  function PreVoteBlock(st: ConsensusState, block: Block, now: Time): (r: ConsensusState)
    ensures |r.votes| == |st.votes| + |st.validators|
    ensures r.votes[..|st.votes|] == st.votes
    ensures forall i :: 0 <= i < |st.validators| ==>
      r.votes[|st.votes| + i] == Vote(st.validators[i].id, block.hash, now, PreVote)
    ensures r.(votes := st.votes) == st
    ensures Valid(st) ==> Valid(r)
  {
    AppendVotes(st, block, now, PreVote)
  }

  /** Pre-commit phase: every snapshot validator commits to the block. */
  function PreCommitBlock(st: ConsensusState, block: Block, now: Time): (r: ConsensusState)
    ensures |r.votes| == |st.votes| + |st.validators|
    ensures r.votes[..|st.votes|] == st.votes
    ensures forall i :: 0 <= i < |st.validators| ==>
      r.votes[|st.votes| + i] == Vote(st.validators[i].id, block.hash, now, PreCommit)
    ensures r.(votes := st.votes) == st
    ensures Valid(st) ==> Valid(r)
  {
    AppendVotes(st, block, now, PreCommit)
  }

  predicate IsPreCommitFor(v: Vote, hash: string) {
    v.blockHash == hash && v.voteType == PreCommit
  }

  /** Number of pre-commit votes for `hash`. */
  function CountPreCommits(votes: seq<Vote>, hash: string): (n: nat)
    ensures n <= |votes|
  {
    if |votes| == 0 then 0
    else
      CountPreCommits(votes[..|votes| - 1], hash)
        + (if IsPreCommitFor(votes[|votes| - 1], hash) then 1 else 0)
  }

  /** The count is zero exactly when no vote is a pre-commit for `hash`, and
      it is the number of votes exactly when every vote is one. */
  lemma {:induction false} CountPreCommitsCharacterized(votes: seq<Vote>, hash: string)
    ensures CountPreCommits(votes, hash) == 0 <==>
      forall i :: 0 <= i < |votes| ==> !IsPreCommitFor(votes[i], hash)
    ensures CountPreCommits(votes, hash) == |votes| <==>
      forall i :: 0 <= i < |votes| ==> IsPreCommitFor(votes[i], hash)
    decreases |votes|
  {
    if |votes| > 0 {
      var init := votes[..|votes| - 1];
      CountPreCommitsCharacterized(init, hash);
      assert forall i :: 0 <= i < |init| ==> init[i] == votes[i];
    }
  }

  lemma {:induction false} CountPreCommitsAppend(a: seq<Vote>, b: seq<Vote>, hash: string)
    ensures CountPreCommits(a + b, hash) == CountPreCommits(a, hash) + CountPreCommits(b, hash)
    decreases |b|
  {
    if |b| > 0 {
      assert (a + b)[..|a + b| - 1] == a + b[..|b| - 1];
      CountPreCommitsAppend(a, b[..|b| - 1], hash);
    } else {
      assert a + b == a;
    }
  }

  /** A pre-commit round for `hash` contributes one counted vote per validator. */
  lemma {:induction false} CountCastPreCommits(validators: seq<Validator.ValidatorNode>, hash: string, now: Time)
    ensures CountPreCommits(CastVotes(validators, hash, now, PreCommit), hash) == |validators|
    decreases |validators|
  {
    var vs := CastVotes(validators, hash, now, PreCommit);
    if |validators| > 0 {
      var n := |validators| - 1;
      assert vs[..n] == CastVotes(validators[..n], hash, now, PreCommit);
      assert vs[n].voteType == PreCommit && vs[n].blockHash == hash;
      CountCastPreCommits(validators[..n], hash, now);
    }
  }

  /** The block with its finality flag and time set. */
  function Finalized(block: Block, now: Time): Block {
    block.(consensus := block.consensus.(finalized := true, finalityTime := now))
  }

  /** Finalizes the block when at least 67 percent of the snapshot validators
      (by headcount, truncated) pre-committed to its hash; then moves to the
      next height and proposer and clears the votes. The block's own height
      is not checked against the current height. */
  function FinalizeBlock(st: ConsensusState, block: Block, now: Time): (r: Result<ConsensusState, EngineError>)
    ensures |st.validators| == 0 ==> r == Err(NoValidators)
    ensures |st.validators| > 0 ==>
      (r.Ok? <==> 100 * CountPreCommits(st.votes, block.hash) >= ConsensusThreshold * |st.validators|)
    ensures r.Err? && |st.validators| > 0 ==>
      r.error == QuorumNotReached(CountPreCommits(st.votes, block.hash), |st.validators|)
    ensures r.Ok? ==>
      && r.value.currentHeight == st.currentHeight + 1
      && r.value.proposerIndex == (st.proposerIndex + 1) % |st.validators|
      && r.value.votes == []
      && r.value.finalizedBlocks == st.finalizedBlocks + [Finalized(block, now)]
      && r.value.currentRound == st.currentRound
      && r.value.validators == st.validators
    ensures r.Ok? && Valid(st) ==> Valid(r.value)
  {
    var totalValidators := |st.validators|;
    var preCommits := CountPreCommits(st.votes, block.hash);
    if totalValidators == 0 then Err(NoValidators)
    else
      var percentage := (preCommits * 100) / totalValidators;
      QuorumByMultiplication(preCommits, totalValidators);
      if percentage >= ConsensusThreshold then
        var st' := st.(
          finalizedBlocks := st.finalizedBlocks + [Finalized(block, now)],
          currentHeight := st.currentHeight + 1,
          proposerIndex := (st.proposerIndex + 1) % totalValidators,
          votes := []);
        assert Valid(st) ==> Valid(st') by {
          if Valid(st) {
            ModSucc(|st.finalizedBlocks|, totalValidators);
          }
        }
        Ok(st')
      else
        Err(QuorumNotReached(preCommits, totalValidators))
  }

  lemma ModSucc(k: nat, n: nat)
    requires n > 0
    ensures (k % n + 1) % n == (k + 1) % n
  {
    var q, m := k / n, k % n;
    assert k == q * n + m;
    if m + 1 < n {
      ModUnique(k + 1, n, q, m + 1);
      ModUnique(m + 1, n, 0, m + 1);
    } else {
      assert k + 1 == (q + 1) * n + 0;
      ModUnique(k + 1, n, q + 1, 0);
      ModUnique(m + 1, n, 1, 0);
    }
  }

  /** The engine's finalization rule is the count quorum of the protocol
      helpers. */
  lemma FinalizeMatchesConsensusRule(st: ConsensusState, block: Block, now: Time)
    requires CountPreCommits(st.votes, block.hash) * 100 < U64Limit
    ensures FinalizeBlock(st, block, now).Ok?
        <==> IsConsensusReached(CountPreCommits(st.votes, block.hash), |st.validators|)
  {
  }

  /** With at least one validator, a pre-commit round for a block always
      gathers enough votes to finalize it, whatever the block's height. */
  lemma PreCommitThenFinalize(st: ConsensusState, block: Block, t1: Time, t2: Time)
    requires |st.validators| > 0
    ensures FinalizeBlock(PreCommitBlock(st, block, t1), block, t2).Ok?
  {
    PreCommitAddsOnePerValidator(st, block, t1);
  }

  /** A pre-commit round adds one counted vote per validator for its block's
      hash; votes are not deduplicated, so repeating the round counts twice. */
  lemma PreCommitAddsOnePerValidator(st: ConsensusState, block: Block, now: Time)
    ensures CountPreCommits(PreCommitBlock(st, block, now).votes, block.hash)
         == CountPreCommits(st.votes, block.hash) + |st.validators|
  {
    var cast := CastVotes(st.validators, block.hash, now, PreCommit);
    CountPreCommitsAppend(st.votes, cast, block.hash);
    CountCastPreCommits(st.validators, block.hash, now);
  }

  /** A pre-vote round adds no pre-commit for any hash. */
  lemma PreVoteAddsNoPreCommit(st: ConsensusState, block: Block, now: Time, hash: string)
    ensures CountPreCommits(PreVoteBlock(st, block, now).votes, hash) == CountPreCommits(st.votes, hash)
  {
    var cast := CastVotes(st.validators, block.hash, now, PreVote);
    CountPreCommitsAppend(st.votes, cast, hash);
    CountNoPreCommits(cast, hash);
  }

  lemma {:induction false} CountNoPreCommits(votes: seq<Vote>, hash: string)
    requires forall i :: 0 <= i < |votes| ==> votes[i].voteType == PreVote
    ensures CountPreCommits(votes, hash) == 0
    decreases |votes|
  {
    if |votes| > 0 {
      CountNoPreCommits(votes[..|votes| - 1], hash);
    }
  }

  /** Finalizing clears the votes, so the next pre-vote round holds exactly
      one vote per validator rather than adding to the previous round's. */
  lemma FreshVotesAfterFinalize(st: ConsensusState, block: Block, now: Time, next: Block, later: Time)
    requires FinalizeBlock(st, block, now).Ok?
    ensures |PreVoteBlock(FinalizeBlock(st, block, now).value, next, later).votes| == |st.validators|
  {
  }

  /** Two validators of three pre-committing do not finalize (66 percent
      after truncation); all three do. */
  lemma TwoOfThreeFailsThreeOfThreeFinalizes(st: ConsensusState, block: Block, now: Time)
    requires |st.validators| == 3
    ensures CountPreCommits(st.votes, block.hash) == 2 ==> FinalizeBlock(st, block, now).Err?
    ensures CountPreCommits(st.votes, block.hash) == 3 ==> FinalizeBlock(st, block, now).Ok?
  {
  }
}

=== FILE: decimal.dfy ===
/** Decimal text for unsigned integers: the `%d` verb of Go's fmt package and
    `strconv.ParseUint(s, 10, 64)`. */
module Decimal {
  import opened Results

  /** 2^64: every Go `uint64` is strictly below this. */
  const U64Limit: nat := 0x1_0000_0000_0000_0000

  predicate IsDigit(c: char) {
    '0' <= c <= '9'
  }

  predicate AllDigits(s: string) {
    forall i :: 0 <= i < |s| ==> IsDigit(s[i])
  }

  predicate NoDigits(s: string) {
    forall i :: 0 <= i < |s| ==> !IsDigit(s[i])
  }

  function DigitChar(d: nat): (c: char)
    requires d < 10
    ensures IsDigit(c)
  {
    ('0' as int + d) as char
  }

  function DigitValue(c: char): (d: nat)
    requires IsDigit(c)
    ensures d < 10
  {
    (c as int - '0' as int) as nat
  }

  /** `fmt.Sprintf("%d", n)`: shortest decimal form, no sign, no leading zero. */
  function NatToString(n: nat): (s: string)
    ensures |s| > 0 && AllDigits(s)
    ensures n >= 10 <==> |s| > 1
    ensures s[0] != '0' || n == 0
  {
    if n < 10 then [DigitChar(n)] else NatToString(n / 10) + [DigitChar(n % 10)]
  }

  /** The value of a string of decimal digits (leading zeros allowed). */
  function DigitsValue(s: string): nat
    requires AllDigits(s)
  {
    if |s| == 0 then 0 else DigitsValue(s[..|s| - 1]) * 10 + DigitValue(s[|s| - 1])
  }

  /** `strconv.ParseUint(s, 10, 64)`: the empty string, any non-digit (no sign,
      no underscore in base 10) and any value that does not fit in 64 bits fail.
      Go distinguishes a syntax error from a range error; both surface as
      "invalid amount" to the only caller, so one error value suffices. */
  function ParseUint(s: string): (r: Result<nat, ()>)
    ensures r.Ok? <==> |s| > 0 && AllDigits(s) && DigitsValue(s) < U64Limit
    ensures r.Ok? ==> r.value == DigitsValue(s) && r.value < U64Limit
  {
    if |s| == 0 || !AllDigits(s) then Err(())
    else if DigitsValue(s) >= U64Limit then Err(())
    else Ok(DigitsValue(s))
  }

  /** Reading back the printed form gives the number. */
  lemma {:induction false} ValueOfNatToString(n: nat)
    ensures DigitsValue(NatToString(n)) == n
  {
    if n >= 10 {
      var s := NatToString(n);
      var p := NatToString(n / 10);
      assert s == p + [DigitChar(n % 10)];
      assert s[..|s| - 1] == p;
      ValueOfNatToString(n / 10);
    }
  }

  /** Distinct numbers print differently. */
  lemma NatToStringInjective(m: nat, n: nat)
    requires NatToString(m) == NatToString(n)
    ensures m == n
  {
    ValueOfNatToString(m);
    ValueOfNatToString(n);
  }

  /** Every uint64 prints to a string `ParseUint` accepts and maps back to it. */
  lemma ParseUintOfNatToString(n: nat)
    requires n < U64Limit
    ensures ParseUint(NatToString(n)) == Ok(n)
  {
    ValueOfNatToString(n);
  }
}

=== FILE: hex.dfy ===
/** Hexadecimal text for byte strings: Go's `encoding/hex` `EncodeToString`
    (lower-case output) and `DecodeString` (either case accepted). */
module Hex {
  import opened Results

  type byte = b: nat | b < 256

  datatype HexError =
    | InvalidByte(c: char)  // a character outside 0-9, a-f, A-F
    | OddLength             // all characters valid, but an odd number of them

  predicate IsHexChar(c: char) {
    '0' <= c <= '9' || 'a' <= c <= 'f' || 'A' <= c <= 'F'
  }

  predicate IsLowerHexChar(c: char) {
    '0' <= c <= '9' || 'a' <= c <= 'f'
  }

  function HexValue(c: char): (v: nat)
    requires IsHexChar(c)
    ensures v < 16
  {
    if '0' <= c <= '9' then (c as int - '0' as int) as nat
    else if 'a' <= c <= 'f' then (c as int - 'a' as int + 10) as nat
    else (c as int - 'A' as int + 10) as nat
  }

  function HexChar(v: nat): (c: char)
    requires v < 16
    ensures IsLowerHexChar(c) && HexValue(c) == v
  {
    "0123456789abcdef"[v]
  }

  /** Lower-cases the letters `A`-`F`; every other character is kept. */
  function LowerChar(c: char): (l: char)
    ensures IsHexChar(c) ==> IsLowerHexChar(l) && HexValue(l) == HexValue(c)
    ensures IsLowerHexChar(c) ==> l == c
  {
    if 'A' <= c <= 'F' then (c as int - 'A' as int + 'a' as int) as char else c
  }

  /** The text with its hex letters lower-cased. */
  function LowerText(s: string): (t: string)
    ensures |t| == |s| && forall i :: 0 <= i < |s| ==> t[i] == LowerChar(s[i])
  {
    seq(|s|, i requires 0 <= i < |s| => LowerChar(s[i]))
  }

  /** Two lower-case digits per byte, most significant nibble first. */
  function Encode(bytes: seq<byte>): (s: string)
    ensures |s| == 2 * |bytes|
    ensures forall i :: 0 <= i < |s| ==> IsLowerHexChar(s[i])
  {
    if |bytes| == 0 then ""
    else [HexChar(bytes[0] / 16), HexChar(bytes[0] % 16)] + Encode(bytes[1..])
  }

  /** Pairs are decoded left to right; the first invalid character is
      reported, and a trailing odd character is reported as `OddLength`
      only when it is itself a valid digit. */
  function Decode(s: string): (r: Result<seq<byte>, HexError>)
    ensures r.Ok? <==> |s| % 2 == 0 && forall i :: 0 <= i < |s| ==> IsHexChar(s[i])
    ensures r.Ok? ==> 2 * |r.value| == |s|
  {
    if |s| == 0 then Ok([])
    else if !IsHexChar(s[0]) then Err(InvalidByte(s[0]))
    else if |s| == 1 then Err(OddLength)
    else if !IsHexChar(s[1]) then Err(InvalidByte(s[1]))
    else
      match Decode(s[2..])
      case Ok(rest) => Ok([HexValue(s[0]) * 16 + HexValue(s[1])] + rest)
      case Err(e) => Err(e)
  }

  /** Decoding what was encoded gives the bytes back. */
  lemma {:induction false} DecodeEncode(bytes: seq<byte>)
    ensures Decode(Encode(bytes)) == Ok(bytes)
  {
    if |bytes| > 0 {
      var s := Encode(bytes);
      assert s[2..] == Encode(bytes[1..]);
      DecodeEncode(bytes[1..]);
      assert bytes == [bytes[0]] + bytes[1..];
    }
  }

  /** A pair of lower-case digits is printed back from the byte it denotes. */
  lemma PairRoundTrip(hi: char, lo: char)
    requires IsLowerHexChar(hi) && IsLowerHexChar(lo)
    ensures var b := HexValue(hi) * 16 + HexValue(lo);
      b < 256 && HexChar(b / 16) == hi && HexChar(b % 16) == lo
  {
    var b := HexValue(hi) * 16 + HexValue(lo);
    assert b / 16 == HexValue(hi) && b % 16 == HexValue(lo);
  }

  /** Encoding what was decoded from lower-case text gives the text back. */
  lemma {:induction false} EncodeDecode(s: string)
    requires |s| % 2 == 0
    requires forall i :: 0 <= i < |s| ==> IsLowerHexChar(s[i])
    ensures Decode(s).Ok? && Encode(Decode(s).value) == s
  {
    if |s| > 0 {
      var tail := s[2..];
      assert forall i :: 0 <= i < |tail| ==> tail[i] == s[i + 2];
      EncodeDecode(tail);
      var rest := Decode(tail).value;
      PairRoundTrip(s[0], s[1]);
      var b: byte := HexValue(s[0]) * 16 + HexValue(s[1]);
      var d := [b] + rest;
      assert Decode(s) == Ok(d);
      assert d[0] == b && d[1..] == rest;
      assert Encode(d) == [s[0], s[1]] + Encode(rest);
      assert s == [s[0], s[1]] + tail;
    }
  }

  /** Upper- and lower-case digits denote the same bytes: decoding ignores
      the case of the letters, errors included. */
  lemma {:induction false} DecodeIgnoresCase(s: string)
    requires forall i :: 0 <= i < |s| ==> IsHexChar(s[i])
    ensures Decode(s) == Decode(LowerText(s))
    decreases |s|
  {
    var l := LowerText(s);
    if |s| >= 2 {
      assert l[2..] == LowerText(s[2..]);
      DecodeIgnoresCase(s[2..]);
    }
  }

  /** Hex text of either case decodes to the bytes whose lower-case encoding
      is the text with its letters lower-cased. */
  lemma DecodeAnyCase(s: string)
    requires |s| % 2 == 0
    requires forall i :: 0 <= i < |s| ==> IsHexChar(s[i])
    ensures Decode(s).Ok? && Encode(Decode(s).value) == LowerText(s)
  {
    DecodeIgnoresCase(s);
    EncodeDecode(LowerText(s));
  }
}

=== FILE: results.dfy ===
/** Success-or-error values used for every fallible operation of the node.
    The Go code returns `(value, error)` pairs; here a failed call carries
    only its error, so "no state change on failure" holds by construction. */
module Results {

  datatype Result<+T, +E> = Ok(value: T) | Err(error: E)

  datatype Option<+T> = None | Some(value: T)

  /** A check that either passes or reports an error (Go's bare `error` return). */
  datatype Outcome<+E> = Pass | Fail(error: E)
}

=== FILE: runs.dfy ===
/** Properties of whole runs of the round engine: any sequence of engine
    calls keeps the engine invariant, and the demo driver, which repeats
    propose, pre-vote, pre-commit and finalize, finalizes one block per
    round with the proposers taken round-robin from the snapshot. */
module ConsensusRuns {
  import opened Results
  import opened UeContext
  import UeTx
  import Validator
  import opened Consensus

  /** One call on the engine, with the instant it happens. */
  datatype Step =
    | ProposeStep(txSeconds: int, now: Time)
    | PreVoteStep(block: Block, now: Time)
    | PreCommitStep(block: Block, now: Time)
    | FinalizeStep(block: Block, now: Time)

  /** The engine state after one call; a failing call leaves it as it was. */
  function Apply(st: ConsensusState, step: Step): (r: ConsensusState)
    requires Valid(st)
    ensures Valid(r)
    ensures r.validators == st.validators
    ensures r.currentHeight == st.currentHeight || r.currentHeight == st.currentHeight + 1
    ensures step.ProposeStep? ==> r == st
  {
    match step
    case ProposeStep(txSeconds, now) =>
      var _ := ProposeBlock(st, txSeconds, now);
      st
    case PreVoteStep(b, now) => PreVoteBlock(st, b, now)
    case PreCommitStep(b, now) => PreCommitBlock(st, b, now)
    case FinalizeStep(b, now) =>
      match FinalizeBlock(st, b, now)
      case Ok(st') => st'
      case Err(_) => st
  }

  /** The state after a sequence of calls, applied left to right. */
  function Run(st: ConsensusState, steps: seq<Step>): (r: ConsensusState)
    requires Valid(st)
    ensures Valid(r)
    ensures r.validators == st.validators
    ensures st.currentHeight <= r.currentHeight <= st.currentHeight + |steps|
    ensures st.finalizedBlocks <= r.finalizedBlocks
    decreases |steps|
  {
    if |steps| == 0 then st
    else
      var mid := Run(st, steps[..|steps| - 1]);
      var r := Apply(mid, steps[|steps| - 1]);
      assert mid.finalizedBlocks <= r.finalizedBlocks by {
        if r.currentHeight != mid.currentHeight {
          var b := steps[|steps| - 1].block;
          var now := steps[|steps| - 1].now;
          assert r == FinalizeBlock(mid, b, now).value;
        }
      }
      r
  }

  /** From a new engine, whatever the calls, the proposer index counts the
      finalized blocks modulo the number of validators, and the height is one
      past that count. */
  lemma ProposerTracksFinalizations(validators: seq<Validator.ValidatorNode>, steps: seq<Step>)
    requires |validators| > 0
    ensures var st := Run(NewInMemoryConsensusEngine(validators), steps);
      && st.proposerIndex == |st.finalizedBlocks| % |validators|
      && st.currentHeight == |st.finalizedBlocks| + 1
      && st.currentRound == 0
  {
  }

  /** One round of the demo driver: propose, pre-vote, pre-commit, finalize.
      Every clock reading of the round is taken as the one instant `now`. */
  function DemoRound(st: ConsensusState, now: Time): (r: ConsensusState)
    requires Valid(st) && |st.validators| > 0
    ensures Valid(r) && r.validators == st.validators
    ensures r.currentHeight == st.currentHeight + 1
    ensures r.proposerIndex == (st.proposerIndex + 1) % |st.validators|
    ensures r.votes == []
    ensures |r.finalizedBlocks| == |st.finalizedBlocks| + 1
    ensures r.finalizedBlocks[..|st.finalizedBlocks|] == st.finalizedBlocks
    ensures var b := r.finalizedBlocks[|st.finalizedBlocks|];
      && b.height == st.currentHeight
      && b.hash == BlockHash(st.currentHeight)
      && b.proposer == st.validators[st.proposerIndex].id
      && b.consensus.finalized
  {
    var block := ProposeBlock(st, now, now).value;
    // The pre-vote and pre-commit phases, as PreVoteBlock and PreCommitBlock
    // compute them.
    var voted := AppendVotes(st, block, now, PreVote);
    var committed := AppendVotes(voted, block, now, PreCommit);
    PreCommitThenFinalize(voted, block, now, now);
    var r := FinalizeBlock(committed, block, now).value;
    assert r.finalizedBlocks[..|st.finalizedBlocks|] == st.finalizedBlocks;
    r
  }

  /** Block i of the history (counting from 0) is the block of height i+1,
      named by its height and proposed by the validator at position i mod n. */
  ghost predicate RoundRobinHistory(blocks: seq<Block>, validators: seq<Validator.ValidatorNode>)
    requires |validators| > 0
  {
    forall i :: 0 <= i < |blocks| ==>
      && blocks[i].height == i + 1
      && blocks[i].hash == BlockHash(i + 1)
      && blocks[i].proposer == validators[i % |validators|].id
  }

  /** Appending the block of the next height, authored by the next validator
      in cyclic order, extends a round-robin history. */
  lemma HistoryExtends(prev: seq<Block>, blocks: seq<Block>, validators: seq<Validator.ValidatorNode>)
    requires |validators| > 0 && RoundRobinHistory(prev, validators)
    requires |blocks| == |prev| + 1 && blocks[..|prev|] == prev
    requires var k := |prev|;
      && blocks[k].height == k + 1
      && blocks[k].hash == BlockHash(k + 1)
      && blocks[k].proposer == validators[k % |validators|].id
    ensures RoundRobinHistory(blocks, validators)
  {
    forall i | 0 <= i < |prev|
      ensures blocks[i] == prev[i]
    {
      assert blocks[..|prev|][i] == blocks[i];
    }
  }

  /** The demo driver from a new engine, one round per entry of `clock`:
      after k rounds the engine is at height k+1 with k blocks finalized,
      proposed round-robin over the snapshot. */
  function RunDemo(validators: seq<Validator.ValidatorNode>, clock: seq<Time>): (st: ConsensusState)
    requires |validators| > 0
    ensures Valid(st) && st.validators == validators
    ensures st.currentHeight == |clock| + 1
    ensures st.proposerIndex == |clock| % |validators|
    ensures |st.finalizedBlocks| == |clock|
    ensures RoundRobinHistory(st.finalizedBlocks, validators)
    decreases |clock|
  {
    if |clock| == 0 then NewInMemoryConsensusEngine(validators)
    else
      var k := |clock| - 1;
      var prev := RunDemo(validators, clock[..k]);
      var st := DemoRound(prev, clock[k]);
      DemoStep(prev, st, k);
      st
  }

  lemma DemoStep(prev: ConsensusState, st: ConsensusState, k: nat)
    requires |prev.validators| > 0 && |prev.finalizedBlocks| == k
    requires prev.proposerIndex == k % |prev.validators|
    requires RoundRobinHistory(prev.finalizedBlocks, prev.validators)
    requires st.validators == prev.validators
    requires st.proposerIndex == (prev.proposerIndex + 1) % |prev.validators|
    requires |st.finalizedBlocks| == k + 1 && st.finalizedBlocks[..k] == prev.finalizedBlocks
    requires && st.finalizedBlocks[k].height == k + 1
             && st.finalizedBlocks[k].hash == BlockHash(k + 1)
             && st.finalizedBlocks[k].proposer == prev.validators[prev.proposerIndex].id
    ensures st.proposerIndex == (k + 1) % |prev.validators|
    ensures RoundRobinHistory(st.finalizedBlocks, prev.validators)
  {
    ModSucc(k, |prev.validators|);
    HistoryExtends(prev.finalizedBlocks, st.finalizedBlocks, prev.validators);
  }

  /** A round-robin history never repeats a block hash. */
  lemma HistoryHashesDistinct(blocks: seq<Block>, validators: seq<Validator.ValidatorNode>, i: nat, j: nat)
    requires |validators| > 0 && RoundRobinHistory(blocks, validators)
    requires i < j < |blocks|
    ensures blocks[i].hash != blocks[j].hash
  {
    assert blocks[i].hash == BlockHash(i + 1) && blocks[j].hash == BlockHash(j + 1);
    BlockHashInjective(i + 1, j + 1);
  }

  /** The finalized history of a demo run never repeats a block hash. */
  lemma DemoHashesDistinct(validators: seq<Validator.ValidatorNode>, clock: seq<Time>, i: nat, j: nat)
    requires |validators| > 0 && i < j < |clock|
    ensures |RunDemo(validators, clock).finalizedBlocks| == |clock|
    ensures RunDemo(validators, clock).finalizedBlocks[i].hash != RunDemo(validators, clock).finalizedBlocks[j].hash
  {
    HistoryHashesDistinct(RunDemo(validators, clock).finalizedBlocks, validators, i, j);
  }

  /** A validator record as the demo writes it: only ID and stake set. */
  function DemoValidator(id: string): Validator.ValidatorNode {
    Validator.ValidatorNode(id, UeTx.ZeroAddress, 30000, Validator.Unset, 0, 0, 0, "", "")
  }

  const DemoValidators: seq<Validator.ValidatorNode> :=
    [DemoValidator("val1"), DemoValidator("val2"), DemoValidator("val3")]

  /** The demo: three validators staking 30000 each all register; the first
      block is proposed by val1 and finalized at full vote, after which the
      engine is at height 2 with val2 next to propose. */
  lemma DemoScenario(t: Time)
    ensures var r1 := Validator.RegisterNode(Validator.EmptyRegistry, DemoValidators[0], t, t);
      && r1.Ok?
      && var r2 := Validator.RegisterNode(r1.value, DemoValidators[1], t, t);
      && r2.Ok?
      && var r3 := Validator.RegisterNode(r2.value, DemoValidators[2], t, t);
      && r3.Ok?
      && Validator.ActiveIds(r3.value) == {"val1", "val2", "val3"}
    ensures var st := NewInMemoryConsensusEngine(DemoValidators);
      && ProposeBlock(st, t, t).Ok?
      && ProposeBlock(st, t, t).value.proposer == "val1"
      && var st' := DemoRound(st, t);
      && st'.currentHeight == 2
      && st'.proposerIndex == 1
      && ProposeBlock(st', t, t).value.proposer == "val2"
  {
    var r1 := Validator.RegisterNode(Validator.EmptyRegistry, DemoValidators[0], t, t);
    var r2 := Validator.RegisterNode(r1.value, DemoValidators[1], t, t);
    var r3 := Validator.RegisterNode(r2.value, DemoValidators[2], t, t);
    assert "val1" != "val2" && "val1" != "val3" && "val2" != "val3";
    assert Validator.ActiveIds(r3.value) == {"val1", "val2", "val3"};
  }
}

=== FILE: ue_context.dfy ===
/** Protocol constants and the pure helpers of the node's context type. */
module UeContext {
  import opened Decimal
  import opened Arith

  /** Stake (in UE coins) a validator must bond. */
  const MinValidatorStake: nat := 28846
  /** Percentage of validators whose pre-commits finalize a block. */
  const ConsensusThreshold: nat := 67
  /** Target seconds per block (informational). */
  const BlockTime: nat := 5
  /** Blocks per epoch. */
  const EpochDuration: nat := 100
  const DefaultGasLimit: nat := 200000
  /** 1 gwei, in wei. */
  const DefaultGasPrice: nat := 1000000000
  const DefaultChainID: string := "underground-empire-1"
  /** Bytes in an address and in a hash. */
  const AddressLength: nat := 20
  const HashLength: nat := 32

  /** Wall-clock instants are opaque values handed in by the caller. */
  type Time = int

  /** The node context: block height, timestamp and chain identifier. The
      embedded Go `context.Context` carries no behaviour here and is omitted. */
  datatype Context = Context(height: nat, timestamp: Time, chainId: string)

  function NewContext(height: nat, timestamp: Time, chainId: string): (c: Context)
    ensures c.height == height && c.timestamp == timestamp && c.chainId == chainId
  {
    Context(height, timestamp, chainId)
  }

  /** A copy of `c` that differs from it in the height only. */
  function WithHeight(c: Context, height: nat): (r: Context)
    ensures r.height == height
    ensures r.timestamp == c.timestamp && r.chainId == c.chainId
    ensures r == c <==> c.height == height
  {
    Context(height, c.timestamp, c.chainId)
  }

  /** A copy of `c` that differs from it in the timestamp only. */
  function WithTimestamp(c: Context, timestamp: Time): (r: Context)
    ensures r.timestamp == timestamp
    ensures r.height == c.height && r.chainId == c.chainId
    ensures r == c <==> c.timestamp == timestamp
  {
    Context(c.height, timestamp, c.chainId)
  }

  predicate IsValidatorEligible(stake: nat) {
    stake >= MinValidatorStake
  }

  /** 28846 UE is the least stake that qualifies. */
  lemma EligibilityBoundary(stake: nat)
    ensures IsValidatorEligible(stake) <==> stake >= 28846
    ensures !IsValidatorEligible(28845) && IsValidatorEligible(28846)
  {
  }

  /** Eligibility is upward closed: bonding more never makes a stake ineligible. */
  lemma EligibleUpwardClosed(s: nat, t: nat)
    requires IsValidatorEligible(s) && s <= t
    ensures IsValidatorEligible(t)
  {
  }

  /** `stake * blockReward / totalStake` in uint64 arithmetic, or 0 when nothing
      is staked. The product is required not to wrap. */
  function CalculateValidatorReward(stake: nat, totalStake: nat, blockReward: nat): (r: nat)
    requires stake * blockReward < U64Limit
    ensures totalStake == 0 ==> r == 0
    ensures totalStake > 0 ==> r * totalStake <= stake * blockReward < (r + 1) * totalStake
    ensures stake <= totalStake ==> r <= blockReward
  {
    if totalStake == 0 then 0
    else
      var r := (stake * blockReward) / totalStake;
      RewardBounded(stake, totalStake, blockReward, r);
      r
  }

  lemma RewardBounded(stake: nat, totalStake: nat, blockReward: nat, r: nat)
    requires totalStake > 0 && r == (stake * blockReward) / totalStake
    ensures stake <= totalStake ==> r <= blockReward
  {
    if stake <= totalStake {
      MulLeMonotone(stake, totalStake, blockReward);
      DivLeMonotone(stake * blockReward, totalStake * blockReward, totalStake);
      MulDivCancel(blockReward, totalStake);
    }
  }

  /** A larger stake never earns a smaller share of the same reward. */
  lemma RewardMonotoneInStake(s1: nat, s2: nat, totalStake: nat, blockReward: nat)
    requires s1 <= s2 && s2 * blockReward < U64Limit
    ensures s1 * blockReward < U64Limit
    ensures CalculateValidatorReward(s1, totalStake, blockReward)
         <= CalculateValidatorReward(s2, totalStake, blockReward)
  {
    MulLeMonotone(s1, s2, blockReward);
    if totalStake > 0 {
      DivLeMonotone(s1 * blockReward, s2 * blockReward, totalStake);
    }
  }

  /** Count-based quorum: `votes * 100 / total >= 67` in integer arithmetic,
      never reached with no validators. The product is required not to wrap. */
  function IsConsensusReached(votes: nat, totalValidators: nat): (r: bool)
    requires votes * 100 < U64Limit
    ensures r <==> totalValidators > 0 && 100 * votes >= ConsensusThreshold * totalValidators
  {
    if totalValidators == 0 then false
    else
      var percentage := (votes * 100) / totalValidators;
      QuorumByMultiplication(votes, totalValidators);
      percentage >= ConsensusThreshold
  }

  /** Truncating the percentage loses nothing: `v*100/n >= 67` exactly when
      `100*v >= 67*n`. */
  lemma QuorumByMultiplication(votes: nat, n: nat)
    requires n > 0
    ensures (votes * 100) / n >= ConsensusThreshold <==> 100 * votes >= ConsensusThreshold * n
  {
    var q := (votes * 100) / n;
    assert q * n <= votes * 100 < (q + 1) * n;
    if q >= ConsensusThreshold {
      MulLeMonotone(ConsensusThreshold, q, n);
    } else {
      MulLeMonotone(q + 1, ConsensusThreshold, n);
    }
  }

  /** More votes never lose a quorum. */
  lemma ConsensusMonotoneInVotes(v1: nat, v2: nat, n: nat)
    requires v1 <= v2 && v2 * 100 < U64Limit
    ensures v1 * 100 < U64Limit
    ensures IsConsensusReached(v1, n) ==> IsConsensusReached(v2, n)
  {
  }

  /** The smallest finalizing headcounts for 3, 4, 10 and 100 validators: 2 of 3
      falls short (66 percent after truncation) while 3 of 3 suffices. */
  lemma QuorumBoundaries()
    ensures !IsConsensusReached(2, 3) && IsConsensusReached(3, 3)
    ensures !IsConsensusReached(2, 4) && IsConsensusReached(3, 4)
    ensures !IsConsensusReached(6, 10) && IsConsensusReached(7, 10)
    ensures !IsConsensusReached(66, 100) && IsConsensusReached(67, 100)
  {
  }

  /** The epoch a height belongs to. */
  function CalculateEpochNumber(height: nat): (e: nat)
    ensures e * EpochDuration <= height < (e + 1) * EpochDuration
  {
    height / EpochDuration
  }

  /** True at the first height of every epoch (0, 100, 200, ...). */
  function IsEpochBoundary(height: nat): (r: bool)
    ensures r <==> height == CalculateEpochNumber(height) * EpochDuration
  {
    height % EpochDuration == 0
  }

  /** First height of the epoch after the one `height` is in. The product is
      required not to wrap. */
  function CalculateNextEpochHeight(height: nat): (r: nat)
    requires (height / EpochDuration + 1) * EpochDuration < U64Limit
    ensures IsEpochBoundary(r)
    ensures height < r <= height + EpochDuration
    ensures forall b: nat :: height < b < r ==> !IsEpochBoundary(b)
  {
    var currentEpoch := CalculateEpochNumber(height);
    (currentEpoch + 1) * EpochDuration
  }
}

=== FILE: ue_tx.dfy ===
/** Value types of the chain: addresses, coin amounts and transactions. */
module UeTx {
  import opened Results
  import opened Decimal
  import Hex
  import UeContext
  import Arith

  type byte = Hex.byte

  /** Twenty raw bytes. */
  type Address = s: seq<byte> | |s| == 20 witness ZeroBytes

  const ZeroBytes: seq<byte> := [0, 0, 0, 0, 0, 0, 0, 0, 0, 0, 0, 0, 0, 0, 0, 0, 0, 0, 0, 0]

  /** The address whose every byte is 0. */
  const ZeroAddress: Address := ZeroBytes

  datatype AddressError =
    | InvalidHexString(cause: Hex.HexError)
    | InvalidAddressLength(got: nat)

  /** Removes one leading "0x", if present (Go's `strings.TrimPrefix`). */
  function TrimHexPrefix(s: string): (t: string)
    ensures s == t || s == "0x" + t
    ensures s == "0x" + t <==> |s| >= 2 && s[..2] == "0x"
  {
    if |s| >= 2 && s[..2] == "0x" then s[2..] else s
  }

  /** Parses an address from hex text with an optional "0x" prefix. */
  function NewAddress(hexStr: string): (r: Result<Address, AddressError>)
    ensures r.Ok? <==>
      var t := TrimHexPrefix(hexStr);
      |t| == 2 * UeContext.AddressLength && forall i :: 0 <= i < |t| ==> Hex.IsHexChar(t[i])
    ensures Hex.Decode(TrimHexPrefix(hexStr)).Err? ==>
      r == Err(InvalidHexString(Hex.Decode(TrimHexPrefix(hexStr)).error))
    ensures Hex.Decode(TrimHexPrefix(hexStr)).Ok? && r.Err? ==>
      r == Err(InvalidAddressLength(|TrimHexPrefix(hexStr)| / 2))
    ensures r.Ok? ==> AddressString(r.value) == "0x" + Hex.LowerText(TrimHexPrefix(hexStr))
  {
    var t := TrimHexPrefix(hexStr);
    match Hex.Decode(t)
    case Err(e) => Err(InvalidHexString(e))
    case Ok(bytes) =>
      if |bytes| != UeContext.AddressLength then Err(InvalidAddressLength(|bytes|))
      else
        Hex.DecodeAnyCase(t);
        Ok(bytes)
  }

  /** "0x" followed by forty lower-case hex digits. */
  function AddressString(a: Address): (s: string)
    ensures |s| == 42 && s[..2] == "0x"
    ensures forall i :: 2 <= i < |s| ==> Hex.IsLowerHexChar(s[i])
  {
    "0x" + Hex.Encode(a)
  }

  /** Printing an address and parsing the text gives the address back. */
  lemma AddressRoundTrip(a: Address)
    ensures NewAddress(AddressString(a)) == Ok(a)
  {
    var s := AddressString(a);
    assert TrimHexPrefix(s) == Hex.Encode(a);
    Hex.DecodeEncode(a);
  }

  /** Parsing then printing normalises to the lower-case "0x" form: for text
      already in that form the two are inverse. */
  lemma AddressCanonicalText(s: string)
    requires |s| == 42 && s[..2] == "0x"
    requires forall i :: 2 <= i < |s| ==> Hex.IsLowerHexChar(s[i])
    ensures NewAddress(s).Ok? && AddressString(NewAddress(s).value) == s
  {
    var t := s[2..];
    assert TrimHexPrefix(s) == t;
    Hex.EncodeDecode(t);
    assert s == "0x" + t;
  }

  lemma ZeroAddressBytes()
    ensures forall i :: 0 <= i < |ZeroAddress| ==> ZeroAddress[i] == 0
  {
  }

  /** True when no byte is set; scans from the first byte. */
  function AllZero(bytes: seq<byte>): (r: bool)
    ensures r <==> forall i :: 0 <= i < |bytes| ==> bytes[i] == 0
  {
    if |bytes| == 0 then true
    else if bytes[0] != 0 then false
    else AllZero(bytes[1..])
  }

  function IsZeroAddress(a: Address): (r: bool)
    ensures r <==> a == ZeroAddress
  {
    ZeroAddressBytes();
    if AllZero(a) then
      assert a == ZeroAddress by {
        assert forall i :: 0 <= i < |a| ==> a[i] == ZeroAddress[i];
      }
      true
    else false
  }

  datatype CoinAmount = CoinAmount(amount: nat, denom: string)

  datatype CoinError =
    | DenomMismatch(left: string, right: string)
    | InsufficientBalance(have: CoinAmount, need: CoinAmount)

  /** A coin of `amount` units of `denom`; printing it gives the amount's
      digits followed by `denom`. */
  function NewCoinAmount(amount: nat, denom: string): (c: CoinAmount)
    ensures c.amount == amount && c.denom == denom
    ensures CoinString(c) == NatToString(amount) + denom
  {
    CoinAmount(amount, denom)
  }

  /** Coins of the native "ue" denomination. */
  function NewUECoins(amount: nat): (c: CoinAmount)
    ensures c.denom == "ue" && c.amount == amount
  {
    NewCoinAmount(amount, "ue")
  }

  /** `%d%s`: the amount in decimal followed directly by the denomination. */
  function CoinString(c: CoinAmount): (s: string)
    ensures |s| > |c.denom| && s[|s| - |c.denom|..] == c.denom
    ensures AllDigits(s[..|s| - |c.denom|]) && DigitsValue(s[..|s| - |c.denom|]) == c.amount
    ensures s[0] != '0' || c.amount == 0
  {
    ValueOfNatToString(c.amount);
    assert (NatToString(c.amount) + c.denom)[..|NatToString(c.amount)|] == NatToString(c.amount);
    NatToString(c.amount) + c.denom
  }

  /** Sum of two amounts of one denomination. The Go sum is required not to wrap. */
  function Add(c: CoinAmount, other: CoinAmount): (r: Result<CoinAmount, CoinError>)
    requires c.denom == other.denom ==> c.amount + other.amount < U64Limit
    ensures r.Err? <==> c.denom != other.denom
    ensures r.Err? ==> r.error == DenomMismatch(c.denom, other.denom)
    ensures r.Ok? ==> r.value.denom == c.denom && r.value.amount - other.amount == c.amount
  {
    if c.denom != other.denom then Err(DenomMismatch(c.denom, other.denom))
    else Ok(CoinAmount(c.amount + other.amount, c.denom))
  }

  /** Difference of two amounts of one denomination; never goes below zero. */
  function Sub(c: CoinAmount, other: CoinAmount): (r: Result<CoinAmount, CoinError>)
    ensures r.Err? <==> c.denom != other.denom || c.amount < other.amount
    ensures c.denom != other.denom ==> r == Err(DenomMismatch(c.denom, other.denom))
    ensures c.denom == other.denom && c.amount < other.amount ==> r == Err(InsufficientBalance(c, other))
    ensures r.Ok? ==> r.value.denom == c.denom && r.value.amount + other.amount == c.amount
  {
    if c.denom != other.denom then Err(DenomMismatch(c.denom, other.denom))
    else if c.amount < other.amount then Err(InsufficientBalance(c, other))
    else Ok(CoinAmount(c.amount - other.amount, c.denom))
  }

  /** Adding then subtracting the same amount is the identity. */
  lemma AddSubRoundTrip(c: CoinAmount, o: CoinAmount)
    requires c.denom == o.denom && c.amount + o.amount < U64Limit
    ensures Add(c, o).Ok? && Sub(Add(c, o).value, o) == Ok(c)
  {
  }

  /** Subtracting then adding back the same amount is the identity. */
  lemma SubAddRoundTrip(c: CoinAmount, o: CoinAmount)
    requires Sub(c, o).Ok? && c.amount < U64Limit
    ensures Add(Sub(c, o).value, o) == Ok(c)
  {
  }

  /** Scales the amount; the Go product is required not to wrap. */
  function Mul(c: CoinAmount, factor: nat): (r: CoinAmount)
    requires c.amount * factor < U64Limit
    ensures r.denom == c.denom
    ensures factor > 0 ==> r.amount / factor == c.amount && r.amount % factor == 0
    ensures factor == 0 ==> r.amount == 0
  {
    assert factor > 0 ==> (factor * c.amount) / factor == c.amount && (factor * c.amount) % factor == 0 by {
      if factor > 0 { Arith.MulDivCancel(c.amount, factor); Arith.MulModZero(c.amount, factor); }
    }
    CoinAmount(c.amount * factor, c.denom)
  }

  /** Floor division; a zero factor yields zero instead of failing. */
  function Div(c: CoinAmount, factor: nat): (r: CoinAmount)
    ensures r.denom == c.denom
    ensures factor == 0 ==> r.amount == 0
    ensures factor > 0 ==> r.amount * factor <= c.amount < (r.amount + 1) * factor
  {
    if factor == 0 then CoinAmount(0, c.denom)
    else CoinAmount(c.amount / factor, c.denom)
  }

  /** Dividing what was multiplied by a non-zero factor gives the amount back. */
  lemma MulDivRoundTrip(c: CoinAmount, factor: nat)
    requires factor > 0 && c.amount * factor < U64Limit
    ensures Div(Mul(c, factor), factor) == c
  {
  }

  predicate IsZeroCoin(c: CoinAmount) {
    c.amount == 0
  }

  predicate IsPositiveCoin(c: CoinAmount) {
    c.amount > 0
  }

  /** Index of the last decimal digit in `s`, if any; searched from the end. */
  function LastDigitIndex(s: string): (r: Option<nat>)
    ensures r.None? <==> NoDigits(s)
    ensures r.Some? ==> r.value < |s| && IsDigit(s[r.value]) && NoDigits(s[r.value + 1..])
  {
    if |s| == 0 then None
    else if IsDigit(s[|s| - 1]) then Some(|s| - 1)
    else
      var r := LastDigitIndex(s[..|s| - 1]);
      assert forall i :: 0 <= i < |s| - 1 ==> s[..|s| - 1][i] == s[i];
      if r.Some? then
        assert s[r.value + 1..] == s[..|s| - 1][r.value + 1..] + [s[|s| - 1]];
        r
      else r
  }

  datatype ParseCoinError =
    | InvalidCoinFormat(text: string)  // no digit at all
    | InvalidAmount(text: string)      // the part up to the last digit, which is not a uint64

  /** Splits after the last digit: everything up to it must be a uint64, the
      rest is the denomination. */
  function ParseCoinAmount(s: string): (r: Result<CoinAmount, ParseCoinError>)
    ensures NoDigits(s) ==> r == Err(InvalidCoinFormat(s))
    ensures !NoDigits(s) && r.Err? ==>
      && r.error.InvalidAmount?
      && var t := r.error.text;
      && 0 < |t| <= |s| && t == s[..|t|] && IsDigit(t[|t| - 1])
      && NoDigits(s[|t|..]) && ParseUint(t).Err?
    ensures r.Ok? ==>
      var n := |s| - |r.value.denom|;
      && 0 < n <= |s|
      && s[n..] == r.value.denom
      && NoDigits(r.value.denom)
      && ParseUint(s[..n]) == Ok(r.value.amount)
  {
    match LastDigitIndex(s)
    case None => Err(InvalidCoinFormat(s))
    case Some(i) =>
      var amountStr := s[..i + 1];
      var denom := s[i + 1..];
      match ParseUint(amountStr)
      case Err(_) => Err(InvalidAmount(amountStr))
      case Ok(amount) => Ok(CoinAmount(amount, denom))
  }

  /** Any run of digits that fits in a uint64, followed by digit-free text,
      parses to that number in that denomination. */
  lemma ParseCoinAmountOfSplit(p: string, d: string)
    requires |p| > 0 && AllDigits(p) && NoDigits(d) && DigitsValue(p) < U64Limit
    ensures ParseCoinAmount(p + d) == Ok(CoinAmount(DigitsValue(p), d))
  {
    var s := p + d;
    LastDigitOfPrefix(p, d);
    assert s[..|p|] == p;
    assert s[|p|..] == d;
  }

  /** Printing a coin and parsing the text gives the coin back, as long as the
      amount is a uint64 and the denomination holds no digit. */
  lemma CoinRoundTrip(c: CoinAmount)
    requires c.amount < U64Limit && NoDigits(c.denom)
    ensures ParseCoinAmount(CoinString(c)) == Ok(c)
  {
    ValueOfNatToString(c.amount);
    ParseCoinAmountOfSplit(NatToString(c.amount), c.denom);
  }

  lemma {:induction false} LastDigitOfPrefix(p: string, d: string)
    requires |p| > 0 && IsDigit(p[|p| - 1]) && NoDigits(d)
    ensures LastDigitIndex(p + d) == Some(|p| - 1)
    decreases |d|
  {
    var s := p + d;
    if |d| == 0 {
      assert s == p;
    } else {
      assert s[|s| - 1] == d[|d| - 1];
      assert s[..|s| - 1] == p + d[..|d| - 1];
      LastDigitOfPrefix(p, d[..|d| - 1]);
    }
  }

  datatype Transaction = Transaction(
    hash: string,
    from: Address,
    to: Address,
    amount: CoinAmount,
    gas: nat,
    gasPrice: nat,
    data: seq<byte>,
    nonce: nat,
    signature: seq<byte>,
    timestamp: int)

  datatype TxError = ZeroFrom | ZeroTo | ZeroAmount | ZeroGas | ZeroGasPrice

  /** A transaction without a hash, signature or timestamp. */
  function NewTransaction(from: Address, to: Address, amount: CoinAmount, gas: nat, gasPrice: nat,
                          data: seq<byte>, nonce: nat): (tx: Transaction)
    ensures tx.from == from && tx.to == to && tx.amount == amount
    ensures tx.gas == gas && tx.gasPrice == gasPrice && tx.data == data && tx.nonce == nonce
    ensures tx.hash == "" && tx.signature == [] && tx.timestamp == 0
  {
    Transaction("", from, to, amount, gas, gasPrice, data, nonce, [], 0)
  }

  /** Checks sender, recipient, amount, gas and gas price, in that order. */
  function Validate(tx: Transaction): (r: Outcome<TxError>)
    ensures r.Pass? <==>
      && tx.from != ZeroAddress && tx.to != ZeroAddress
      && tx.amount.amount != 0 && tx.gas != 0 && tx.gasPrice != 0
    ensures r == Fail(ZeroFrom) <==> tx.from == ZeroAddress
    ensures r == Fail(ZeroTo) <==> tx.from != ZeroAddress && tx.to == ZeroAddress
    ensures r == Fail(ZeroAmount) <==>
      tx.from != ZeroAddress && tx.to != ZeroAddress && tx.amount.amount == 0
    ensures r == Fail(ZeroGas) <==>
      tx.from != ZeroAddress && tx.to != ZeroAddress && tx.amount.amount != 0 && tx.gas == 0
    ensures r == Fail(ZeroGasPrice) <==>
      tx.from != ZeroAddress && tx.to != ZeroAddress && tx.amount.amount != 0 && tx.gas != 0
      && tx.gasPrice == 0
  {
    if IsZeroAddress(tx.from) then Fail(ZeroFrom)
    else if IsZeroAddress(tx.to) then Fail(ZeroTo)
    else if IsZeroCoin(tx.amount) then Fail(ZeroAmount)
    else if tx.gas == 0 then Fail(ZeroGas)
    else if tx.gasPrice == 0 then Fail(ZeroGasPrice)
    else Pass
  }

  /** Gas times gas price; the Go product is required not to wrap. */
  function CalculateGasCost(tx: Transaction): (r: nat)
    requires tx.gas * tx.gasPrice < U64Limit
    ensures r == 0 <==> tx.gas == 0 || tx.gasPrice == 0
    ensures tx.gasPrice > 0 ==> r / tx.gasPrice == tx.gas && r % tx.gasPrice == 0
  {
    assert tx.gasPrice > 0 ==>
      (tx.gasPrice * tx.gas) / tx.gasPrice == tx.gas && (tx.gasPrice * tx.gas) % tx.gasPrice == 0
    by {
      if tx.gasPrice > 0 {
        Arith.MulDivCancel(tx.gas, tx.gasPrice);
        Arith.MulModZero(tx.gas, tx.gasPrice);
      }
    }
    tx.gas * tx.gasPrice
  }

  /** A freshly built transaction is valid exactly when its parties, amount,
      gas and gas price are all non-zero; its missing hash, signature and
      timestamp never make it fail. */
  lemma NewTransactionValidates(from: Address, to: Address, amount: CoinAmount, gas: nat, gasPrice: nat,
                                data: seq<byte>, nonce: nat)
    ensures Validate(NewTransaction(from, to, amount, gas, gasPrice, data, nonce)).Pass? <==>
      from != ZeroAddress && to != ZeroAddress && amount.amount > 0 && gas > 0 && gasPrice > 0
  {
  }

  /** A transaction that passes validation always costs some gas. */
  lemma ValidTransactionCostsGas(tx: Transaction)
    requires Validate(tx).Pass? && tx.gas * tx.gasPrice < U64Limit
    ensures CalculateGasCost(tx) > 0
  {
  }
}

=== FILE: validator.dfy ===
/** The validator registry: a map from validator ID to its record, with
    registration, soft deregistration, replacement, slashing and the
    aggregates over the active validators. */
module Validator {
  import opened Results
  import opened Decimal
  import opened UeContext
  import UeTx

  /** `Unset` is Go's zero value, the empty status string, which a record has
      until the registry stores it. */
  datatype ValidatorStatus = Unset | Active | Inactive | Slashed | Jailed

  /** The four named slashing causes, as Go spells them. */
  predicate IsNamedCause(name: string) {
    name == "double_signing" || name == "downtime" || name == "invalid_block" || name == "equivocation"
  }

  /** A cause name other than the four named ones. */
  type OtherCause = name: string | !IsNamedCause(name) witness ""

  /** Slashing causes. Go's reason is any string; a string that is not one of
      the four named causes is an `OtherReason`. */
  datatype SlashReason =
    | DoubleSigning
    | Downtime
    | InvalidBlock
    | Equivocation
    | OtherReason(name: OtherCause)

  /** The Go string of a cause. */
  function ReasonName(reason: SlashReason): (name: string)
    ensures IsNamedCause(name) <==> !reason.OtherReason?
  {
    match reason
    case DoubleSigning => "double_signing"
    case Downtime => "downtime"
    case InvalidBlock => "invalid_block"
    case Equivocation => "equivocation"
    case OtherReason(n) => n
  }

  /** The cause a Go reason string stands for. */
  function ReasonOf(name: string): (r: SlashReason)
    ensures ReasonName(r) == name
  {
    if name == "double_signing" then DoubleSigning
    else if name == "downtime" then Downtime
    else if name == "invalid_block" then InvalidBlock
    else if name == "equivocation" then Equivocation
    else OtherReason(name)
  }

  /** Every cause has exactly one Go string. */
  lemma ReasonOfName(reason: SlashReason)
    ensures ReasonOf(ReasonName(reason)) == reason
  {
  }

  datatype ValidatorNode = ValidatorNode(
    id: string,
    address: UeTx.Address,
    stake: nat,
    status: ValidatorStatus,
    commission: nat,  // basis points, 0..10000 (not enforced by the registry)
    createdAt: Time,
    updatedAt: Time,
    description: string,
    website: string)

  type Registry = map<string, ValidatorNode>

  /** A fresh registry holds no validators. */
  const EmptyRegistry: Registry := map[]

  /** Placeholder reward paid per block and shared by stake. */
  const BlockReward: nat := 1000

  datatype RegistryError =
    | InsufficientStake(required: nat, got: nat)
    | DuplicateValidator(id: string)
    | ValidatorNotFound(id: string)

  /** Every record is filed under its own ID. */
  ghost predicate WellKeyed(reg: Registry) {
    forall id :: id in reg ==> reg[id].id == id
  }

  /** Every active validator holds at least the minimum stake. */
  ghost predicate ActiveEligible(reg: Registry) {
    forall id :: id in reg && reg[id].status == Active ==> IsValidatorEligible(reg[id].stake)
  }

  function ActiveIds(reg: Registry): (ids: set<string>)
    ensures ids <= reg.Keys
    ensures forall id :: id in ids <==> id in reg && reg[id].status == Active
  {
    set id | id in reg && reg[id].status == Active
  }

  /** Stores `node` as a new active validator, with the two clock readings
      `created` and `updated` as its timestamps. The stake
      check comes before the duplicate check. */
  function RegisterNode(reg: Registry, node: ValidatorNode, created: Time, updated: Time): (r: Result<Registry, RegistryError>)
    ensures r.Err? <==> !IsValidatorEligible(node.stake) || node.id in reg
    ensures !IsValidatorEligible(node.stake) ==> r == Err(InsufficientStake(MinValidatorStake, node.stake))
    ensures IsValidatorEligible(node.stake) && node.id in reg ==> r == Err(DuplicateValidator(node.id))
    ensures r.Ok? ==>
      && r.value.Keys == reg.Keys + {node.id}
      && |r.value| == |reg| + 1
      && r.value[node.id] == node.(status := Active, createdAt := created, updatedAt := updated)
      && (forall id :: id in reg ==> r.value[id] == reg[id])
      && ActiveIds(r.value) == ActiveIds(reg) + {node.id}
    ensures r.Ok? && WellKeyed(reg) ==> WellKeyed(r.value)
    ensures r.Ok? && ActiveEligible(reg) ==> ActiveEligible(r.value)
  {
    if !IsValidatorEligible(node.stake) then Err(InsufficientStake(MinValidatorStake, node.stake))
    else if node.id in reg then Err(DuplicateValidator(node.id))
    else
      var stored := node.(createdAt := created, updatedAt := updated, status := Active);
      var reg' := reg[node.id := stored];
      assert reg'.Keys == reg.Keys + {node.id};
      Ok(reg')
  }

  /** Marks a validator inactive; the record itself is kept. */
  function DeregisterNode(reg: Registry, id: string, now: Time): (r: Result<Registry, RegistryError>)
    ensures r.Err? <==> id !in reg
    ensures r.Err? ==> r.error == ValidatorNotFound(id)
    ensures r.Ok? ==>
      && r.value.Keys == reg.Keys
      && r.value[id] == reg[id].(status := Inactive, updatedAt := now)
      && (forall other :: other in reg && other != id ==> r.value[other] == reg[other])
      && ActiveIds(r.value) == ActiveIds(reg) - {id}
    ensures r.Ok? && WellKeyed(reg) ==> WellKeyed(r.value)
    ensures r.Ok? && ActiveEligible(reg) ==> ActiveEligible(r.value)
  {
    if id !in reg then Err(ValidatorNotFound(id))
    else
      var v := reg[id];
      Ok(reg[id := v.(status := Inactive, updatedAt := now)])
  }

  function GetValidator(reg: Registry, id: string): (r: Result<ValidatorNode, RegistryError>)
    ensures r.Ok? <==> id in reg
    ensures r.Ok? ==> r.value == reg[id]
    ensures r.Err? ==> r.error == ValidatorNotFound(id)
  {
    if id in reg then Ok(reg[id]) else Err(ValidatorNotFound(id))
  }

  /** Replaces the record filed under `node.id`, stamped with `now`. */
  function UpdateValidator(reg: Registry, node: ValidatorNode, now: Time): (r: Result<Registry, RegistryError>)
    ensures r.Err? <==> node.id !in reg
    ensures r.Err? ==> r.error == ValidatorNotFound(node.id)
    ensures r.Ok? ==>
      && r.value.Keys == reg.Keys
      && r.value[node.id] == node.(updatedAt := now)
      && (forall other :: other in reg && other != node.id ==> r.value[other] == reg[other])
    ensures r.Ok? && WellKeyed(reg) ==> WellKeyed(r.value)
  {
    if node.id !in reg then Err(ValidatorNotFound(node.id))
    else Ok(reg[node.id := node.(updatedAt := now)])
  }

  /** Penalty by cause: half for double-signing and equivocation, a quarter
      for an invalid block, a tenth for downtime and for any other cause. */
  function SlashAmount(stake: nat, reason: SlashReason): (r: nat)
    ensures r <= stake
    ensures reason.DoubleSigning? || reason.Equivocation? ==> 2 * r <= stake < 2 * (r + 1)
    ensures reason.InvalidBlock? ==> 4 * r <= stake < 4 * (r + 1)
    ensures reason.Downtime? || reason.OtherReason? ==> 10 * r <= stake < 10 * (r + 1)
  {
    match reason
    case DoubleSigning => stake / 2
    case Downtime => stake / 10
    case InvalidBlock => stake / 4
    case Equivocation => stake / 2
    case OtherReason(_) => stake / 10
  }

  /** Stake left after a penalty: what remains, or nothing at all when what
      remains is below the minimum. */
  function StakeAfterSlash(stake: nat, reason: SlashReason): (s: nat)
    ensures s <= stake
    ensures s == 0 || IsValidatorEligible(s)
    ensures s > 0 ==> s + SlashAmount(stake, reason) == stake
    ensures s == 0 ==> stake - SlashAmount(stake, reason) < MinValidatorStake
  {
    var left := stake - SlashAmount(stake, reason);
    if left < MinValidatorStake then 0 else left
  }

  /** Penalises a validator: its status becomes slashed and its stake drops by
      the cause's penalty, to zero if the rest is below the minimum. */
  function SlashNode(reg: Registry, id: string, reason: SlashReason, now: Time): (r: Result<Registry, RegistryError>)
    ensures r.Err? <==> id !in reg
    ensures r.Err? ==> r.error == ValidatorNotFound(id)
    ensures r.Ok? ==>
      && r.value.Keys == reg.Keys
      && r.value[id] == reg[id].(status := Slashed, stake := StakeAfterSlash(reg[id].stake, reason), updatedAt := now)
      && (forall other :: other in reg && other != id ==> r.value[other] == reg[other])
      && ActiveIds(r.value) == ActiveIds(reg) - {id}
    ensures r.Ok? ==>
      && r.value[id].stake <= reg[id].stake
      && (r.value[id].stake == 0 || r.value[id].stake >= MinValidatorStake)
    ensures r.Ok? && WellKeyed(reg) ==> WellKeyed(r.value)
    ensures r.Ok? && ActiveEligible(reg) ==> ActiveEligible(r.value)
  {
    match GetValidator(reg, id)
    case Err(e) => Err(e)
    case Ok(v) =>
      var slashed := v.(status := Slashed, stake := StakeAfterSlash(v.stake, reason), updatedAt := now);
      Ok(reg[id := slashed])
  }

  /** `ids` lists distinct validator IDs, and exactly those of `s`. */
  ghost predicate Enumerates(ids: seq<string>, s: set<string>) {
    && (forall i, j :: 0 <= i < j < |ids| ==> ids[i] != ids[j])
    && (forall id :: id in ids <==> id in s)
  }

  /** The active validators, one record per active ID, in an unspecified
      order: the registry is a hash map and the order of iteration is not
      fixed. */
  method GetActiveValidators(reg: Registry) returns (active: seq<ValidatorNode>, ghost order: seq<string>)
    ensures Enumerates(order, ActiveIds(reg))
    ensures |active| == |order|
    ensures forall i :: 0 <= i < |active| ==> active[i] == reg[order[i]]
    ensures forall v :: v in active ==> v.status == Active
  {
    active := [];
    order := [];
    var remaining := reg.Keys;
    while remaining != {}
      invariant remaining <= reg.Keys
      invariant forall i, j :: 0 <= i < j < |order| ==> order[i] != order[j]
      invariant forall id :: id in order <==> id in ActiveIds(reg) && id !in remaining
      invariant |active| == |order|
      invariant forall i :: 0 <= i < |active| ==> order[i] in reg && active[i] == reg[order[i]]
      decreases |remaining|
    {
      var id :| id in remaining;
      if reg[id].status == Active {
        active := active + [reg[id]];
        order := order + [id];
      }
      remaining := remaining - {id};
    }
  }

  /** Sum of the stakes of the records in `vs`. */
  function ListStake(vs: seq<ValidatorNode>): nat {
    if |vs| == 0 then 0 else ListStake(vs[..|vs| - 1]) + vs[|vs| - 1].stake
  }

  ghost function Pick(ids: set<string>): (id: string)
    requires ids != {}
    ensures id in ids
  {
    var id :| id in ids; id
  }

  /** Sum of the stakes filed under `ids`, independent of any order. */
  ghost function StakeSum(reg: Registry, ids: set<string>): nat
    requires ids <= reg.Keys
    decreases |ids|
  {
    if ids == {} then 0
    else
      var id := Pick(ids);
      reg[id].stake + StakeSum(reg, ids - {id})
  }

  /** Total stake bonded by the active validators. */
  ghost function TotalActiveStake(reg: Registry): nat {
    StakeSum(reg, ActiveIds(reg))
  }

  /** Any member of the set can be split off the sum first. */
  lemma {:induction false} StakeSumRemove(reg: Registry, ids: set<string>, x: string)
    requires ids <= reg.Keys && x in ids
    ensures StakeSum(reg, ids) == reg[x].stake + StakeSum(reg, ids - {x})
    decreases |ids|
  {
    var y := Pick(ids);
    if y != x {
      StakeSumRemove(reg, ids - {y}, x);
      StakeSumRemove(reg, ids - {x}, y);
      assert ids - {y} - {x} == ids - {x} - {y};
    }
  }

  /** Dropping the last entry enumerates the set without that entry. */
  lemma EnumerationDropLast(order: seq<string>, ids: set<string>)
    requires Enumerates(order, ids) && |order| > 0
    ensures Enumerates(order[..|order| - 1], ids - {order[|order| - 1]})
  {
    var n := |order| - 1;
    forall id
      ensures id in order[..n] <==> id in ids - {order[n]}
    {
      if id in order[..n] {
        var k :| 0 <= k < n && order[k] == id;
        assert order[k] != order[n];
      }
      if id in ids - {order[n]} {
        var k :| 0 <= k < |order| && order[k] == id;
        assert k != n;
      }
    }
  }

  /** Summing along an enumeration of a set gives the set's sum. */
  lemma {:induction false} ListStakeOfEnumeration(reg: Registry, active: seq<ValidatorNode>, order: seq<string>, ids: set<string>)
    requires ids <= reg.Keys && Enumerates(order, ids)
    requires |active| == |order| && forall i :: 0 <= i < |active| ==> active[i] == reg[order[i]]
    ensures ListStake(active) == StakeSum(reg, ids)
    decreases |order|
  {
    if |order| > 0 {
      var n := |order| - 1;
      var last := order[n];
      var rest := ids - {last};
      EnumerationDropLast(order, ids);
      ListStakeOfEnumeration(reg, active[..n], order[..n], rest);
      StakeSumRemove(reg, ids, last);
    } else {
      assert forall id :: id in ids ==> id in order;
      assert ids == {};
    }
  }

  /** An enumeration has exactly as many entries as the set has members. */
  lemma {:induction false} EnumerationSize(order: seq<string>, ids: set<string>)
    requires Enumerates(order, ids)
    ensures |order| == |ids|
    decreases |order|
  {
    if |order| > 0 {
      var n := |order| - 1;
      var rest := ids - {order[n]};
      EnumerationDropLast(order, ids);
      EnumerationSize(order[..n], rest);
    } else {
      assert forall id :: id in ids ==> id in order;
      assert ids == {};
    }
  }

  /** Total stake of the active validators, summed over the active list. */
  method GetTotalStake(reg: Registry) returns (total: nat)
    ensures total == TotalActiveStake(reg)
  {
    var active;
    ghost var order;
    active, order := GetActiveValidators(reg);
    total := 0;
    var i := 0;
    while i < |active|
      invariant 0 <= i <= |active|
      invariant total == ListStake(active[..i])
    {
      assert active[..i + 1][..i] == active[..i];
      total := total + active[i].stake;
      i := i + 1;
    }
    assert active[..i] == active;
    ListStakeOfEnumeration(reg, active, order, ActiveIds(reg));
  }

  /** Number of active validators. */
  method GetValidatorCount(reg: Registry) returns (count: nat)
    ensures count == |ActiveIds(reg)|
  {
    var active;
    ghost var order;
    active, order := GetActiveValidators(reg);
    count := |active|;
    EnumerationSize(order, ActiveIds(reg));
  }

  /** An active validator's stake is part of the active total. */
  lemma ActiveStakeWithinTotal(reg: Registry, id: string)
    requires id in ActiveIds(reg)
    ensures reg[id].stake <= TotalActiveStake(reg)
  {
    StakeSumRemove(reg, ActiveIds(reg), id);
  }

  /** The reward the registry pays `id` for one block. */
  ghost function RewardOf(reg: Registry, id: string): nat
    requires id in reg ==> reg[id].stake * BlockReward < U64Limit
  {
    if id !in reg then 0
    else CalculateValidatorReward(reg[id].stake, TotalActiveStake(reg), BlockReward)
  }

  /** One block's reward for `id`, proportional to its share of the active
      stake. The product of its stake and the block reward is required not
      to wrap. */
  method CalculateRewards(reg: Registry, id: string) returns (reward: nat)
    requires id in reg ==> reg[id].stake * BlockReward < U64Limit
    ensures reward == RewardOf(reg, id)
    ensures id !in reg || TotalActiveStake(reg) == 0 ==> reward == 0
    ensures id in ActiveIds(reg) ==> reward <= BlockReward
  {
    match GetValidator(reg, id)
    case Err(_) =>
      reward := 0;
    case Ok(v) =>
      var totalStake := GetTotalStake(reg);
      reward := CalculateValidatorReward(v.stake, totalStake, BlockReward);
      if id in ActiveIds(reg) {
        ActiveStakeWithinTotal(reg, id);
      }
  }

  /** Among registered validators the reward is monotone in stake. */
  lemma RewardMonotone(reg: Registry, a: string, b: string)
    requires a in reg && b in reg && reg[a].stake <= reg[b].stake
    requires reg[b].stake * BlockReward < U64Limit
    ensures reg[a].stake * BlockReward < U64Limit
    ensures RewardOf(reg, a) <= RewardOf(reg, b)
  {
    RewardMonotoneInStake(reg[a].stake, reg[b].stake, TotalActiveStake(reg), BlockReward);
  }
}
